=== FILE: README.md ===
# Bilibili ticket helper: a Dafny model of the purchase loop

`biliqp.js` is a userscript for the Bilibili ticket pages. On a show's detail
page the user picks a screen (performance), a ticket tier (sku) and a buyer,
then either starts at once or schedules a start for a time of day
(`HH:MM:SS.mmm`). When the moment comes, the script sends the order-preparation
request. If the reply carries a token, the script persists a small loop record
(active flag, click interval, start time, snapshot of the selection) and jumps
to the confirm-order page. There, every page load reads the record:

- if the loop is off, it does nothing;
- if the link is older than three minutes, it renews the link with a fresh
  prepare request built from the snapshot;
- otherwise it waits for the submit control, clicks it when it is enabled,
  and reloads the page after the click interval if the flag is still set.

The payment page clears the record.

The model is a set of pure transitions over immutable records:

- `LoopStore` holds the persisted record and the `Step` a page load produces.
  A step is a list of effects (store writes, prepare requests, clicks) and
  then one final action: stay idle, navigate, reload, decline to reload, or
  stop. Writes that come before the action are the awaited
  `GM_setValue` calls that come before `location.href` or `reload()`.
  `After(store, step)` is the store the next page load reads.
- `Router` chooses the page handler from the URL (`handlePageRouting`) and
  models the payment page.
- `ConfirmLoop` is the confirm page. It covers `runOnConfirmPage`,
  `clickAndRefresh` and the stop-loop button.
- `Renewal` is `reExecuteApiFlow`.
- `Attempt` covers the selection, the prepare request and
  `navigateToConfirmPage`.
- `DetailPage` is the detail page as an event machine. Its events are select
  changes, the start, immediate and stop buttons, animation frames and
  prepare replies. It covers `checkAllSelected`, `grabImmediately`,
  `startCountdown` with its frame callback, `stopGrabbing` and the reply
  handlers of `executeApiFlow`.
- `Schedule` is the start-time arithmetic. It covers the pattern, the target
  instant, the strict-future rule, one countdown tick and the h/m/s/ms
  display.
- `Waiter` is `waitForElement`, polling every 100 ms.
- `Remote` is the classification of prepare replies.
- `Flow` joins page loads through the store: what one page leaves decides
  what the next one does.

The prepare request is built from the selection when it is sent
(`executeApiFlow`, which for a scheduled start is when the countdown fires),
and the saved snapshot from the selection when the reply arrives
(`navigateToConfirmPage`). The selects stay usable in between, so the two can
differ; `DetailPage.SnapshotAtReplyTime` states what is then saved.

Clocks, replies, DOM polls and button presses made during a load are
parameters of the transitions. Nothing is read from a real clock or network.

## Model

| member | source | states |
|---|---|---|
| Common.ContainsIffOccurs | biliqp.js:49-54 | `includes`, as used by the router, holds exactly when some position of the URL starts a copy of the pattern (both directions) |
| Router.Route | biliqp.js:47-56 | the payment marker wins over the detail patterns, which win over the confirm pattern; no handler runs exactly when no pattern occurs |
| Router.MallDayuPatternRedundant | biliqp.js:51 | every URL containing the `/mall-dayu/…/detail.html` pattern also contains `/neul-next/ticket/detail.html`, so the middle test of the detail check never decides anything |
| Router.RunOnPaymentPage | biliqp.js:105-109 | whatever the store held, the payment page leaves the loop flag off and the snapshot cleared, sends nothing and stays |
| Router.OnLoad | biliqp.js:47-56 | the detail page and unmatched URLs do nothing on load; the payment URL clears the loop, sends nothing and stays on the page; the confirm URL runs the confirm-page controller |
| Remote.Classify | biliqp.js:170-179 | a reply is a success exactly when `data.token` is truthy, and then it carries that token and ptoken; a transport error is exactly the network-error case; a rejection always has a non-empty message, the reply's own when truthy and "未知错误" otherwise |
| Attempt.NavigateToConfirmPage | biliqp.js:221-235 | whatever the store held before, the next page reads an active loop started now, the chosen interval (500 when the field is empty) and the whole selection; the jump goes to the order link for the token and the current buyer; no request and no click |
| Renewal.Renew | biliqp.js:183-218 | without a snapshot the loop is switched off and nothing is sent; with one, exactly one request, rebuilt from the snapshot, goes out first; the page navigates exactly when the reply has a token, to the snapshot's project and buyer, after resetting the start time and leaving everything else alone (apart from a stop-loop press while the request was out); every failure switches the loop off and stays |
| ConfirmLoop.Decide | biliqp.js:86-102 | a load does nothing exactly when the flag is off, renews exactly when the link is more than three minutes old (a missing start time never counts as old), and otherwise clicks with the stored interval (500 by default) |
| ConfirmLoop.ClickAndRefresh | biliqp.js:309-338 | the expired-page marker stops the loop at once; otherwise every outcome of the wait reaches the delayed check, which reloads exactly when the flag it reads is on, that is, when the loop was on and the stop button was not pressed; the control is clicked exactly when it was found enabled; only the stop button touches the store |
| ConfirmLoop.CheckReadsStop | biliqp.js:329-337 | the flag the delayed check reads is the flag at load time, unless the stop-loop button was pressed in between |
| ConfirmLoop.OnConfirmLoad | biliqp.js:86-102 | a load with the loop off does nothing; a stale link always sends exactly one request, the renewal request rebuilt from the snapshot, and navigates exactly when the reply has a token, to the snapshot's project and buyer with the new token, resetting only the start time (and the flag when stop was pressed), stops with the flag off when the reply has none, or stops when there is no snapshot; a fresh link always reaches the delayed check unless the page has expired, reloading exactly when stop was not pressed, and clicks exactly when the control was found enabled; a request goes out only on the renewal path and a click only on the click path; a reload keeps the flag on and uses the stored interval; a navigation reset the start time; every stop leaves the flag off |
| ConfirmLoop.StopLoopButton | biliqp.js:499-503 | the stop-loop button switches the flag off and changes nothing else |
| ConfirmLoop.StopPressIsButton | biliqp.js:329-337 | a stop-loop press observed during the click path leaves the store exactly as the button alone does, and the delayed check then declines to reload |
| Waiter.MissesAllowed | biliqp.js:241-251 | the wait gives up after the least number of 100 ms misses whose total reaches the timeout, and after at least one (30 for the 3000 ms submit wait) |
| Waiter.PollFromSpec | biliqp.js:242-252 | from any poll before the budget runs out, the interval resolves at the first later hit within the budget and rejects after the budget's misses otherwise |
| Waiter.WaitForElement | biliqp.js:238-256 | the wait resolves with the element of the first poll that finds it, within the miss budget; it rejects only when every poll in the budget missed |
| Waiter.WaitFoundIff | biliqp.js:238-256 | the wait resolves exactly when some poll within the budget sees the element |
| Waiter.WaitIgnoresLaterPolls | biliqp.js:244-251 | polls after the budget cannot change how the wait settles |
| Schedule.ParseTime | biliqp.js:275-279 | an input has a time exactly when it matches `^\d{2}:\d{2}:\d{2}\.\d{3}$`, and that time is between 0 and 99:99:99.999 |
| Schedule.ParseFormat | biliqp.js:275-279 | formatting fields with zero padding and parsing the result gives back their offset (round trip, format then parse) |
| Schedule.FormatFields | biliqp.js:275-279 | a well-formed input is the zero-padded formatting of its own fields (round trip, parse then format) |
| Schedule.ScheduleTarget | biliqp.js:274-285 | a start is refused as malformed exactly when the pattern fails, and as not in the future exactly when today's target is not after now; an accepted target is after now and is today's midnight plus the parsed time |
| Schedule.Parts | biliqp.js:297-301 | the displayed hours, minutes, seconds and milliseconds recompose the remaining time, with minutes and seconds below 60 and milliseconds below 1000 |
| Schedule.PartsUnique | biliqp.js:297-301 | the display is the only decomposition of the remaining time with those bounds |
| Schedule.Tick | biliqp.js:290-304 | a tick does nothing once the handle is cleared; otherwise it fires exactly when the remaining time is at most zero, and shows the remaining time, decomposed, exactly when it is positive |
| Schedule.ClockTextRoundTrip | biliqp.js:296-302 | reading the countdown's clock text as a start time gives back the remaining time |
| DetailPage.CheckAllSelected | biliqp.js:420-424 | as written, both start buttons follow the selection alone, whether or not an attempt is running |
| DetailPage.CheckAllSelectedGuarded | biliqp.js:420-424 | corrected: the start buttons are enabled exactly when everything is chosen and no attempt is running (stop button off) |
| DetailPage.Cancel | biliqp.js:341 | cancelling a frame removes exactly the frames with that id |
| DetailPage.StopGrabbing | biliqp.js:340-351 | stop cancels the pending countdown frame, clears the handle, switches the flag off and changes nothing else in the store, re-enables both start buttons exactly when everything is chosen, and disables stop |
| DetailPage.ScreenChangeResetsSku | biliqp.js:373-378 | a new screen forgets the ticket tier, so both start buttons go off |
| DetailPage.StartNeedsSelection | biliqp.js:258-273 | both start paths refuse, with no effect, unless screen, tier and buyer are all chosen |
| DetailPage.StartNeedsFutureTime | biliqp.js:269-307 | a scheduled start with a malformed or past time changes nothing; otherwise it arms exactly one new frame for the target, takes the handle and switches the buttons |
| DetailPage.ImmediateSendsOneRequest | biliqp.js:258-267 | an immediate start sends exactly one request for the current selection and switches the buttons |
| DetailPage.StopGrabbingIdempotent | biliqp.js:340-351 | stopping twice leaves the page and the store as stopping once |
| DetailPage.PrepareReplyOutcome | biliqp.js:158-181 | a reply with a token jumps with the full loop record written first; anything else stops, leaving the flag off and the countdown cleared |
| DetailPage.ImmediateRoundTrip | biliqp.js:158-181 | an immediate start followed directly by its token reply saves a snapshot that rebuilds exactly the request sent, and jumps to the chosen buyer |
| DetailPage.SnapshotAtReplyTime | biliqp.js:221-235 | the snapshot is the selection when the reply arrives: a screen change while the request is out is saved (new screen, no tier), so the saved record no longer rebuilds the request that earned the token |
| DetailPage.NoFramesStayQuiet | biliqp.js:290-306 | with no frame pending, nothing ever runs again |
| DetailPage.ClearedTimerNeverFires | biliqp.js:290-292 | once the handle is cleared, pending callbacks send nothing and request no further frame |
| DetailPage.CallbacksIgnored | biliqp.js:291 | every callback that runs while the handle is cleared does nothing |
| DetailPage.FrameStep | biliqp.js:290-304 | an armed frame before the target re-arms for the same target and sends nothing; at or after the target it sends the request once and stops re-arming |
| DetailPage.CountdownFiresOnce | biliqp.js:290-306 | an armed countdown sends its request exactly once if some frame reaches the target, never otherwise, and sends nothing else |
| DetailPage.GuardedEventKeepsOneCountdown | biliqp.js:420-424 | with the corrected gating, no event creates a second pending countdown |
| DetailPage.GuardedRunKeepsOneCountdown | biliqp.js:420-424 | with the corrected gating, no sequence of events ever leaves two countdowns pending |
| DetailPage.DoubleCountdownAsWritten | biliqp.js:420-424 | as written, switching the buyer during a countdown re-enables start, and a second start leaves two countdowns that both send the request at the target |
| DetailPage.SingleCountdownGuarded | biliqp.js:420-424 | with the corrected gating, the same events leave one countdown and one request |
| Flow.AttemptThenConfirm | biliqp.js:86-99 | after a successful attempt, a confirm load up to three minutes later clicks with the chosen interval; a later one renews with the request for the saved selection (the selection held when the reply arrived) and that selection's buyer |
| Flow.RenewalThenConfirm | biliqp.js:200-208 | a renewal that jumps keeps the snapshot and interval, so the next load within three minutes of the reply clicks again; if stop was pressed meanwhile, the next load is idle |
| Flow.PaymentEndsLoop | biliqp.js:105-109 | after the payment page, every confirm load does nothing |
| Flow.FreshProfileIdle | biliqp.js:86-102 | on a profile that never ran the script, every confirm load does nothing |
| Flow.ReloadKeepsRecord | biliqp.js:329-337 | a load that reloads leaves the store exactly as it found it |
| Flow.StopIsFinal | biliqp.js:88-101 | after a load that stops or declines to reload, the next load does nothing |
| Flow.ReloadChainKeepsStore | biliqp.js:329-337 | along any chain of reloading loads, the store never changes |
| Flow.ReloadChainRenews | biliqp.js:89-93 | along a chain of reloads, the first load more than three minutes after the start takes the renewal path |
| Flow.ExampleAttempt | biliqp.js:221-234 | a token reply on screen S1, tier K1, buyer B1 leaves the loop on with that selection saved and jumps with token T1 |
| Flow.ExampleClick | biliqp.js:318-337 | a load 1 ms into the loop, with the control found enabled on the first poll, clicks and reloads after 500 ms |
| Flow.ExampleStaleAndBoundary | biliqp.js:91 | a load four minutes into the loop renews; a load exactly three minutes in still clicks |
| Flow.ExamplePayment | biliqp.js:49-50 | a URL with the payment marker clears the loop, whatever came before |

## Left out

- Network transport, URL building and JSON parsing are left out. A prepare reply is an observed value (`Remote.Reply`). The order link keeps its four parameters without the string template.
- The DOM is left out: status texts, colours, alerts, panels, dragging, styles and the donate dialog. Only the enabled state of the three detail buttons is modelled.
- `fetchAllInfo`, `fetchSkuInfo`, `fetchBuyerInfo`, and filling the three select boxes (with the price formatting) are left out. Only what a select change does to the selection and the buttons is modelled. Reading `projectId` from the page URL is left out too; the project id is a parameter.
- `populateTicketSelector` adds a fresh change listener each time the screen changes. Each listener does the same thing, so one is modelled.
- Real `Date` values are left out. Clocks are integers of milliseconds, and a scheduled target is today's midnight (a parameter) plus the parsed offset. Fields past their usual range carry into the next unit, as `new Date(…)` does, so the offset is linear in the fields. Only daylight-saving shifts are not modelled.
- `parseInt` on the interval field is left out. The field (a number input) is an optional natural number, and an empty field means 500. Negative or fractional entries, which `parseInt` would pass on as they are or truncate, are not modelled.
- `requestAnimationFrame` is left out. It is modelled as a queue of pending callbacks, all run at each frame in request order. The browser's frame rate is not modelled.
- `GM_setValue` writes without `await` (in `stopGrabbing` and the stop-loop button) are modelled as taking effect at once.
- The submit control is a `div`. On a real `div`, `.disabled` is always `undefined`, so the disabled branch of `clickAndRefresh` never runs in a browser. The model still treats the control's disabled state as an observation, as the code reads it.
- On the confirm page, a stop-loop press is a flag placed before the load's final read of the loop flag. Presses at other moments are not modelled.
- `GM_log` and error messages are left out.
- DetailPage.StopGrabbing: cancels any handle, although the script's truthiness test would skip a handle of 0. `requestAnimationFrame` never returns 0, and the page's handles start at 1.

## Findings

| source | as written | input that shows it | evidently intended | confidence | as-written member | corrected member |
|---|---|---|---|---|---|---|
| biliqp.js:420-424 | Any select change re-enables the start and immediate buttons when all three ids are chosen, even while a countdown is pending, because only `stopGrabbing` re-enables them deliberately | Choose screen, tier and buyer. Schedule 20:00:00.000. Switch to another buyer. Schedule again. At 20:00 two frame loops are live and both call `executeApiFlow`, so two prepare requests go out | Start stays disabled while an attempt runs, so one scheduled start gives one countdown and one request | medium, not executed | DetailPage.DoubleCountdownAsWritten | DetailPage.GuardedRunKeepsOneCountdown |

The corrected gating is `DetailPage.CheckAllSelectedGuarded`. `DetailPage.HandleGuarded` dispatches events with it; the script itself is `DetailPage.Dispatch` with `AsWritten`. `DetailPage.SingleCountdownGuarded` replays the same events on the corrected page and proves they give one request.

=== FILE: attempt.dfy ===
/** The purchase attempt: the selection it needs, the request it sends, and
    what a successful prepare reply persists before leaving the page
    (`navigateToConfirmPage`). */
module Attempt {
  import opened Common
  import opened Remote
  import opened LoopStore
  import Config

  /** The identifiers held in page memory (`STATE`) on the detail page. */
  datatype Selection = Selection(projectId: Id, screenId: Id, skuId: Id, buyerId: Id)

  /** Screen, ticket tier and buyer are all chosen (the project id is not checked). */
  predicate AllSelected(sel: Selection) {
    Selected(sel.screenId) && Selected(sel.skuId) && Selected(sel.buyerId)
  }

  /** The prepare request `executeApiFlow` sends for the current selection. */
  function RequestFor(sel: Selection): PrepareRequest {
    PrepareRequest(sel.projectId, sel.screenId, sel.skuId)
  }

  /** The `loopData` record: the whole selection, copied. */
  function Snapshot(sel: Selection): LoopData {
    LoopData(sel.projectId, sel.screenId, sel.skuId, sel.buyerId)
  }

  /** The click interval taken from the interval field; an empty field means 500 ms. */
  function ClickInterval(input: Option<nat>): nat {
    input.GetOr(Config.DefaultClickInterval)
  }

  /** `navigateToConfirmPage`: four awaited writes, then the jump to the
      confirm page. Whatever the store held before, the next page reads an
      active loop started `now`, the chosen interval and the full snapshot. */
  function NavigateToConfirmPage(sel: Selection, projectId: Id, token: string, ptoken: Option<string>,
                                 now: int, input: Option<nat>): (step: Step)
    ensures step.action == Navigate(OrderUrl(projectId, token, ptoken, sel.buyerId))
    ensures forall s: Store ::
      After(s, step) == Store(true, Some(now), Some(ClickInterval(input)), Some(Snapshot(sel)))
    ensures NoRequest(step.effects) && Click !in step.effects
  {
    var first := [Persist(SetLooping(true)), Persist(SetInterval(ClickInterval(input)))];
    var second := [Persist(SetStartTime(now)), Persist(SetLoopData(Some(Snapshot(sel))))];
    ConfirmRecordWritten(first, second, sel, now, input);
    Step(first + second, Navigate(OrderUrl(projectId, token, ptoken, sel.buyerId)))
  }

  /** The four writes of `navigateToConfirmPage` overwrite every key. */
  lemma ConfirmRecordWritten(first: seq<Effect>, second: seq<Effect>, sel: Selection, now: int, input: Option<nat>)
    requires first == [Persist(SetLooping(true)), Persist(SetInterval(ClickInterval(input)))]
    requires second == [Persist(SetStartTime(now)), Persist(SetLoopData(Some(Snapshot(sel))))]
    ensures forall s: Store ::
      Replay(s, first + second) == Store(true, Some(now), Some(ClickInterval(input)), Some(Snapshot(sel)))
  {
    forall s: Store
      ensures Replay(s, first + second) == Store(true, Some(now), Some(ClickInterval(input)), Some(Snapshot(sel)))
    {
      ReplayAppend(s, first, second);
      ReplayTwo(s, first[0], first[1]);
      ReplayTwo(Replay(s, first), second[0], second[1]);
    }
  }
}

=== FILE: common.dfy ===
/** Small shared vocabulary: optional values, results, identifiers as the
    script holds them, and substring search with JavaScript's `includes`
    meaning. */
module Common {

  /** A value that may be absent (JavaScript `null`/`undefined`). */
  datatype Option<T> = None | Some(value: T) {

    /** The value, or `default` when absent (the second argument of `GM_getValue`). */
    function GetOr(default: T): T {
      match this
      case Some(v) => v
      case None => default
    }
  }

  /** Either a value or the reason there is none. */
  datatype Result<T, E> = Success(value: T) | Failure(error: E)

  /** A select-box identifier: `null` before anything is chosen, otherwise the
      option's string value ("" for the placeholder option). */
  type Id = Option<string>

  /** JavaScript truthiness of an identifier: `null` and "" are both falsy. */
  predicate Selected(id: Id) {
    id.Some? && id.value != ""
  }

  /** Truthiness of an optional string field of a JSON reply. */
  predicate Truthy(s: Option<string>) {
    s.Some? && s.value != ""
  }

  /** `sub` occurs in `s` starting at index `i`. */
  predicate OccursAt(s: string, sub: string, i: nat) {
    i <= |s| && sub <= s[i..]
  }

  /** `String.prototype.includes`: some position of `s` starts a copy of `sub`. */
  predicate Contains(s: string, sub: string)
    decreases |s|
  {
    sub <= s || (|s| > 0 && Contains(s[1..], sub))
  }

  /** `Contains` agrees with the positional definition, in both directions. */
  lemma {:induction false} ContainsIffOccurs(s: string, sub: string)
    ensures Contains(s, sub) <==> exists i: nat :: OccursAt(s, sub, i)
    decreases |s|
  {
    if Contains(s, sub) {
      if sub <= s {
        assert OccursAt(s, sub, 0);
      } else {
        ContainsIffOccurs(s[1..], sub);
        var i: nat :| OccursAt(s[1..], sub, i);
        assert s[1..][i..] == s[i + 1..];
        assert OccursAt(s, sub, i + 1);
      }
    }
    if exists i: nat :: OccursAt(s, sub, i) {
      var i: nat :| OccursAt(s, sub, i);
      if i != 0 {
        assert s[1..][i - 1..] == s[i..];
        assert OccursAt(s[1..], sub, i - 1);
        ContainsIffOccurs(s[1..], sub);
      }
    }
  }

  /** Containment is transitive: a string containing `mid` contains everything `mid` contains. */
  lemma ContainsTransitive(s: string, mid: string, sub: string)
    requires Contains(s, mid) && Contains(mid, sub)
    ensures Contains(s, sub)
  {
    ContainsIffOccurs(s, mid);
    ContainsIffOccurs(mid, sub);
    var i: nat :| OccursAt(s, mid, i);
    var j: nat :| OccursAt(mid, sub, j);
    forall k | 0 <= k < |sub|
      ensures sub[k] == s[i + j..][k]
    {
      assert sub[k] == mid[j..][k] == mid[j + k];
      assert mid[j + k] == s[i..][j + k];
    }
    assert OccursAt(s, sub, i + j);
    ContainsIffOccurs(s, sub);
  }
}

=== FILE: config.dfy ===
/** The script's fixed configuration: selectors, marker strings, thresholds and
    the default timings. */
module Config {

  /** CSS selector of the confirm page's submit control. */
  const SubmitButtonSelector: string := "div.bili-button-type-primary"

  /** Text the confirm page shows once its order link has expired. */
  const FailureText: string := "当前页面已失效"

  /** Age after which a confirm-page link is renewed: three minutes, in milliseconds. */
  const LinkRefreshTime: int := 3 * 60 * 1000

  /** Substring identifying the payment (cashier) page. */
  const PaymentPagePattern: string := "cashierdesk"

  /** Substrings identifying the three ticket detail pages, in the order the router checks them. */
  const DetailPatternPlatform: string := "platform/detail.html"
  const DetailPatternMallDayu: string := "/mall-dayu/neul-next/ticket/detail.html"
  const DetailPatternNeulNext: string := "/neul-next/ticket/detail.html"

  /** Substring identifying the order confirm page. */
  const ConfirmPagePattern: string := "ticket/confirmOrder.html"

  /** Delay between a click and the next reload when none was stored. */
  const DefaultClickInterval: nat := 500

  /** How long the confirm page waits for its submit control. */
  const SubmitWaitTimeout: int := 3000

  /** Spacing of the element wait's polls. */
  const PollInterval: nat := 100

  /** Message shown when a rejected reply carries no message of its own. */
  const UnknownError: string := "未知错误"
}

=== FILE: confirm.dfy ===
/** The confirm-page controller (`runOnConfirmPage` and `clickAndRefresh`):
    on each load, either stay idle, renew a stale link, or click the submit
    control and reload after the click interval. */
module ConfirmLoop {
  import opened Common
  import opened Remote
  import opened LoopStore
  import opened Waiter
  import Config
  import Renewal

  /** Which branch a confirm-page load takes after reading the store. */
  datatype Path = NoTask | Renewing | Clicking(interval: nat)

  /** The branch decision of `runOnConfirmPage`. A missing start time reads as
      the current clock, so it never looks stale. */
  function Decide(store: Store, now: int): (p: Path)
    ensures p == NoTask <==> !store.looping
    ensures p == Renewing <==>
      store.looping && store.startTime.Some? && now - store.startTime.value > Config.LinkRefreshTime
    ensures p.Clicking? ==> p.interval == store.interval.GetOr(Config.DefaultClickInterval)
  {
    if !store.looping then NoTask
    else if now - store.startTime.GetOr(now) > Config.LinkRefreshTime then Renewing
    else Clicking(store.interval.GetOr(Config.DefaultClickInterval))
  }

  /** The wait for the submit control (`Config.SubmitButtonSelector`) found it
      enabled, so it is clicked. */
  predicate ClicksSubmit(polls: seq<Poll>) {
    var w := WaitForElement(polls, Config.SubmitWaitTimeout);
    w.Found? && !w.control.disabled
  }

  /** The timer callback after the click interval: reload only if the flag,
      read afresh, is still set. */
  function DelayedCheck(store: Store, interval: nat): Action {
    if store.looping then Reload(interval) else NoReload(interval)
  }

  /** `clickAndRefresh(interval)`. `failureText` says the page shows the
      expired-link marker, `polls` is what the wait for the submit control
      observed, and `stopPressed` says the stop-loop button was pressed before
      the delayed check. */
  function ClickAndRefresh(store: Store, interval: nat, failureText: bool, polls: seq<Poll>,
                           stopPressed: bool): (step: Step)
    // an expired page ends the loop at once and never reloads
    ensures failureText ==> step == Step([Persist(SetLooping(false))], Stop)
    // otherwise every outcome of the wait (clicked, disabled, not found) reaches the delayed check
    ensures !failureText ==> step.action == Reload(interval) || step.action == NoReload(interval)
    // and the check reloads iff the flag it reads is set
    ensures !failureText ==> (step.action == Reload(interval) <==> After(store, step).looping)
    ensures !failureText ==> (step.action == Reload(interval) <==> store.looping && !stopPressed)
    // and nothing but the stop button touches the store
    ensures !failureText ==> After(store, step) == store.(looping := store.looping && !stopPressed)
    ensures Click in step.effects <==> !failureText && ClicksSubmit(polls)
    ensures NoRequest(step.effects)
  {
    if failureText then
      ReplayOne(store, Persist(SetLooping(false)));
      Step([Persist(SetLooping(false))], Stop)
    else
      var clicked := if ClicksSubmit(polls) then [Click] else [];
      var stop := if stopPressed then [Persist(SetLooping(false))] else [];
      var effects := clicked + stop;
      CheckReadsStop(store, clicked, stop, stopPressed);
      Step(effects, DelayedCheck(Replay(store, effects), interval))
  }

  /** The store the delayed check reads: only the stop button can have changed it. */
  lemma CheckReadsStop(store: Store, clicked: seq<Effect>, stop: seq<Effect>, stopPressed: bool)
    requires clicked == [] || clicked == [Click]
    requires stop == if stopPressed then [Persist(SetLooping(false))] else []
    ensures Replay(store, clicked + stop) == store.(looping := store.looping && !stopPressed)
  {
    ReplayAppend(store, clicked, stop);
    ReplayNoWrites(store, clicked);
    if stopPressed {
      ReplayOne(store, stop[0]);
    }
  }

  /** Everything a confirm-page load observes besides the store. */
  datatype ConfirmObs = ConfirmObs(
    now: int,           // clock at load
    failureText: bool,  // the page text contains Config.FailureText
    polls: seq<Poll>,   // the wait for the submit control
    stopPressed: bool,  // the stop-loop button was pressed during the load
    reply: Reply,       // the renewal's prepare reply
    replyTime: int)     // clock when that reply arrives

  /** One confirm-page load, from reading the store to its final action. */
  function OnConfirmLoad(store: Store, obs: ConfirmObs): (step: Step)
    // no loop: no effect at all
    ensures !store.looping ==> step == Step([], Idle)
    // a request goes out only on the renewal path, and at most one
    ensures !NoRequest(step.effects) ==> Decide(store, obs.now) == Renewing
    // the click path and the renewal path never mix
    ensures Click in step.effects ==> Decide(store, obs.now).Clicking? && NoRequest(step.effects)
    // a reload keeps the loop on for the next load, after the stored interval
    ensures step.action.Reload? ==>
      After(store, step).looping && Decide(store, obs.now) == Clicking(step.action.after)
    // a navigation is a renewal that reset the clock first
    ensures step.action.Navigate? ==>
      Decide(store, obs.now) == Renewing && After(store, step).startTime == Some(obs.replyTime)
    // every way of stopping leaves the flag off in the store
    ensures step.action.Stop? || step.action.NoReload? ==> !After(store, step).looping
    // a stale link is always renewed from the snapshot, or the loop stops when there is none
    ensures Decide(store, obs.now) == Renewing && store.loopData.Some? ==>
      && |step.effects| > 0
      && step.effects[0] == Prepare(Renewal.RequestOf(store.loopData.value))
      && NoRequest(step.effects[1..])
      && (step.action.Navigate? <==> Classify(obs.reply).Ok?)
    // a successful renewal jumps to the snapshot's link and only resets the clock
    ensures Decide(store, obs.now) == Renewing && store.loopData.Some? && Classify(obs.reply).Ok? ==>
      var d, o := store.loopData.value, Classify(obs.reply);
      && step.action == Navigate(OrderUrl(d.projectId, o.token, o.ptoken, d.buyerId))
      && After(store, step) == store.(startTime := Some(obs.replyTime), looping := store.looping && !obs.stopPressed)
    ensures Decide(store, obs.now) == Renewing && store.loopData.None? ==>
      step == Step([Persist(SetLooping(false))], Stop)
    // a failed renewal stops and leaves the flag off
    ensures Decide(store, obs.now) == Renewing && !Classify(obs.reply).Ok? ==>
      step.action == Stop && !After(store, step).looping
    // a fresh link always reaches the delayed check, unless the page has expired
    ensures Decide(store, obs.now).Clicking? && !obs.failureText ==>
      step.action == Reload(Decide(store, obs.now).interval) || step.action == NoReload(Decide(store, obs.now).interval)
    ensures Decide(store, obs.now).Clicking? && !obs.failureText ==>
      (step.action.Reload? <==> !obs.stopPressed)
    ensures Decide(store, obs.now).Clicking? && obs.failureText ==>
      step == Step([Persist(SetLooping(false))], Stop)
    ensures Decide(store, obs.now).Clicking? ==>
      (Click in step.effects <==> !obs.failureText && ClicksSubmit(obs.polls))
  {
    match Decide(store, obs.now)
    case NoTask => Step([], Idle)
    case Renewing => Renewal.Renew(store, obs.reply, obs.replyTime, obs.stopPressed)
    case Clicking(interval) => ClickAndRefresh(store, interval, obs.failureText, obs.polls, obs.stopPressed)
  }

  /** The stop-loop button: one unawaited write of the flag. A press during a
      confirm load is the `stopPressed` observation, which adds this same
      write inside `ClickAndRefresh` and `Renewal.Renew`
      (`StopPressIsButton`). */
  function StopLoopButton(store: Store): (step: Step)
    ensures After(store, step) == store.(looping := false)
    ensures NoRequest(step.effects) && step.action == Idle
  {
    ReplayOne(store, Persist(SetLooping(false)));
    Step([Persist(SetLooping(false))], Idle)
  }

  /** A press observed during the click path leaves the store exactly as the
      button alone would: the click and the wait touch nothing else. */
  lemma StopPressIsButton(store: Store, interval: nat, polls: seq<Poll>)
    ensures After(store, ClickAndRefresh(store, interval, false, polls, true)) == After(store, StopLoopButton(store))
    ensures ClickAndRefresh(store, interval, false, polls, true).action == NoReload(interval)
  {
  }
}

=== FILE: detail.dfy ===
/** The ticket detail page: the user's selections, the start / immediate /
    stop buttons, the animation-frame countdown, and the handling of the
    prepare reply (`executeApiFlow`). The page is an event machine over an
    immutable record; every event returns the next record and a `Step`. */
module DetailPage {
  import opened Common
  import opened Remote
  import opened LoopStore
  import opened Attempt
  import opened Schedule
  import Renewal

  /** Which of the three buttons are enabled. */
  datatype Controls = Controls(start: bool, immediate: bool, stop: bool)

  /** A requested animation frame that will run the countdown callback for `target`. */
  datatype Frame = Frame(id: nat, target: int)

  /** The page's memory. `timer` is `STATE.countdownTimer` (the id of the last
      requested frame, or null); `frames` are the callbacks still to run, in
      request order; `nextId` is what the next `requestAnimationFrame` returns. */
  datatype Detail = Detail(
    sel: Selection,
    controls: Controls,
    timer: Option<nat>,
    frames: seq<Frame>,
    nextId: nat)

  /** The page just after `runOnDetailPage`: nothing chosen, all three buttons
      disabled, no countdown. */
  function Open(projectId: Id): Detail {
    Detail(Selection(projectId, None, None, None), Controls(false, false, false), None, [], 1)
  }

  /** The two versions of the start-button gating: the script's, and the
      corrected one that keeps the start buttons off while an attempt runs. */
  datatype Gating = AsWritten | Guarded

  /** The user and browser events the page reacts to. */
  datatype Event =
    | ChooseScreen(value: string)
    | ChooseSku(value: string)
    | ChooseBuyer(value: string)
    | PressStart(input: string, midnight: int, now: int)  // the start-time field, today's midnight, clock
    | PressImmediate
    | PressStop
    | AnimationFrame(now: int)
    | PrepareReply(req: PrepareRequest, reply: Reply, now: int, intervalInput: Option<nat>)

  /** The result of one event. */
  datatype Transition = Transition(next: Detail, step: Step)

  function Unchanged(d: Detail): Transition {
    Transition(d, Step([], Idle))
  }

  /** `checkAllSelected` as written: the start buttons follow the selection alone. */
  function CheckAllSelected(d: Detail): (r: Detail)
    ensures r.controls.start == r.controls.immediate == AllSelected(d.sel)
    ensures r == d.(controls := r.controls) && r.controls.stop == d.controls.stop
  {
    d.(controls := d.controls.(start := AllSelected(d.sel), immediate := AllSelected(d.sel)))
  }

  /** The corrected `checkAllSelected`: while an attempt runs (the stop button
      is enabled) the start buttons stay disabled. */
  function CheckAllSelectedGuarded(d: Detail): (r: Detail)
    ensures r.controls.start == r.controls.immediate == (AllSelected(d.sel) && !d.controls.stop)
    ensures r == d.(controls := r.controls) && r.controls.stop == d.controls.stop
  {
    var enable := AllSelected(d.sel) && !d.controls.stop;
    d.(controls := d.controls.(start := enable, immediate := enable))
  }

  function Recheck(d: Detail, g: Gating): Detail {
    match g
    case AsWritten => CheckAllSelected(d)
    case Guarded => CheckAllSelectedGuarded(d)
  }

  /** The frames left after `cancelAnimationFrame(id)`. */
  function Cancel(frames: seq<Frame>, id: nat): (r: seq<Frame>)
    ensures forall f :: f in r <==> f in frames && f.id != id
    ensures |r| <= |frames|
    decreases |frames|
  {
    if frames == [] then []
    else (if frames[0].id == id then [] else [frames[0]]) + Cancel(frames[1..], id)
  }

  /** `stopGrabbing(reason)`: cancel the countdown, clear its handle, switch
      the loop flag off, re-enable the start buttons iff everything is chosen,
      disable the stop button. */
  function StopGrabbing(d: Detail): (t: Transition)
    ensures t.next.timer.None? && t.next.sel == d.sel
    ensures t.next.controls == Controls(AllSelected(d.sel), AllSelected(d.sel), false)
    ensures d.timer.Some? ==> forall f :: f in t.next.frames ==> f.id != d.timer.value
    ensures forall s: Store :: After(s, t.step) == s.(looping := false)
    ensures t.step.action == Stop && NoRequest(t.step.effects)
  {
    var all := AllSelected(d.sel);
    var frames := if d.timer.Some? then Cancel(d.frames, d.timer.value) else d.frames;
    assert forall s: Store :: Replay(s, [Persist(SetLooping(false))]) == s.(looping := false) by {
      forall s: Store ensures Replay(s, [Persist(SetLooping(false))]) == s.(looping := false) {
        ReplayOne(s, Persist(SetLooping(false)));
      }
    }
    Transition(
      d.(controls := Controls(all, all, false), timer := None, frames := frames),
      Step([Persist(SetLooping(false))], Stop))
  }

  /** `grabImmediately`: refuse unless all three ids are chosen; otherwise
      disable the start buttons, enable stop, and send the prepare request. */
  function GrabImmediately(d: Detail): Transition {
    if !AllSelected(d.sel) then Unchanged(d)
    else
      Transition(
        d.(controls := Controls(false, false, true)),
        Step([Prepare(RequestFor(d.sel))], Idle))
  }

  /** `startCountdown`: refuse unless all three ids are chosen and the start
      time is well formed and in the future; otherwise disable the start
      buttons, enable stop and request the first countdown frame. */
  function StartCountdown(d: Detail, input: string, midnight: int, now: int): Transition {
    if !AllSelected(d.sel) then Unchanged(d)
    else
      match ScheduleTarget(input, midnight, now)
      case Failure(_) => Unchanged(d)
      case Success(target) =>
        Unchanged(d.(controls := Controls(false, false, true),
                     frames := d.frames + [Frame(d.nextId, target)],
                     timer := Some(d.nextId),
                     nextId := d.nextId + 1))
  }

  /** One run of `updateCountdownDisplay` for a frame, at clock `now`. */
  function Callback(d: Detail, f: Frame, now: int): Transition {
    match Tick(d.timer.Some?, f.target, now)
    case Ignored => Unchanged(d)
    case Fire => Transition(d, Step([Prepare(RequestFor(d.sel))], Idle))
    case Show(_, _, _, _) =>
      Unchanged(d.(frames := d.frames + [Frame(d.nextId, f.target)],
                   timer := Some(d.nextId),
                   nextId := d.nextId + 1))
  }

  /** Run the callbacks that were due at this frame, in order; frames they
      request go to the next frame. */
  function RunDue(d: Detail, due: seq<Frame>, now: int): Transition
    decreases |due|
  {
    if due == [] then Unchanged(d)
    else
      var t := Callback(d, due[0], now);
      var rest := RunDue(t.next, due[1..], now);
      Transition(rest.next, Step(t.step.effects + rest.step.effects, Idle))
  }

  /** One animation frame: every pending callback runs once. */
  function OnFrame(d: Detail, now: int): Transition {
    RunDue(d.(frames := []), d.frames, now)
  }

  /** The `onload`/`onerror` handlers of `executeApiFlow`: a reply with a
      token leads to `navigateToConfirmPage` with the selection as it is now;
      anything else is `stopGrabbing`. */
  function OnPrepareReply(d: Detail, req: PrepareRequest, reply: Reply, now: int,
                          intervalInput: Option<nat>): Transition
  {
    match Classify(reply)
    case Ok(token, ptoken) =>
      Transition(d, NavigateToConfirmPage(d.sel, req.projectId, token, ptoken, now, intervalInput))
    case _ => StopGrabbing(d)
  }

  /** One event, under the given gating. A click on a disabled button does nothing. */
  function Dispatch(d: Detail, e: Event, g: Gating): Transition {
    match e
    case ChooseScreen(v) =>
      // populateTicketSelector, then screenId := value, skuId := null, checkAllSelected
      Unchanged(Recheck(d.(sel := d.sel.(screenId := Some(v), skuId := None)), g))
    case ChooseSku(v) => Unchanged(Recheck(d.(sel := d.sel.(skuId := Some(v))), g))
    case ChooseBuyer(v) => Unchanged(Recheck(d.(sel := d.sel.(buyerId := Some(v))), g))
    case PressStart(input, midnight, now) =>
      if d.controls.start then StartCountdown(d, input, midnight, now) else Unchanged(d)
    case PressImmediate =>
      if d.controls.immediate then GrabImmediately(d) else Unchanged(d)
    case PressStop =>
      if d.controls.stop then StopGrabbing(d) else Unchanged(d)
    case AnimationFrame(now) => OnFrame(d, now)
    case PrepareReply(req, reply, now, input) => OnPrepareReply(d, req, reply, now, input)
  }

  /** One event on the page with the corrected gating. */
  function HandleGuarded(d: Detail, e: Event): Transition {
    Dispatch(d, e, Guarded)
  }

  /** A sequence of events; a navigation ends the page and drops what follows. */
  function Run(d: Detail, events: seq<Event>, g: Gating): Transition
    decreases |events|
  {
    if events == [] then Unchanged(d)
    else
      var t := Dispatch(d, events[0], g);
      if t.step.action.Navigate? then t
      else
        var rest := Run(t.next, events[1..], g);
        Transition(rest.next, Step(t.step.effects + rest.step.effects, rest.step.action))
  }

  /** Animation frames only, at the given clock values. */
  function RunFrames(d: Detail, nows: seq<int>): Transition
    decreases |nows|
  {
    if nows == [] then Unchanged(d)
    else
      var t := OnFrame(d, nows[0]);
      var rest := RunFrames(t.next, nows[1..]);
      Transition(rest.next, Step(t.step.effects + rest.step.effects, Idle))
  }

  // ---------------------------------------------------------------------
  // Selection and gating

  /** Changing the screen forgets the ticket tier, so both start buttons go off. */
  lemma ScreenChangeResetsSku(d: Detail, v: string, g: Gating)
    ensures var t := Dispatch(d, ChooseScreen(v), g);
      && t.next.sel == d.sel.(screenId := Some(v), skuId := None)
      && !t.next.controls.start && !t.next.controls.immediate
      && t.step == Step([], Idle)
  {
  }

  /** Both start paths refuse, with no effect at all, unless all three ids are chosen. */
  lemma StartNeedsSelection(d: Detail, e: Event, g: Gating)
    requires e.PressStart? || e.PressImmediate?
    requires !AllSelected(d.sel)
    ensures Dispatch(d, e, g) == Unchanged(d)
  {
  }

  /** A scheduled start is refused, with no effect, unless the time is well
      formed and strictly in the future; otherwise it arms exactly one frame. */
  lemma StartNeedsFutureTime(d: Detail, input: string, midnight: int, now: int, g: Gating)
    requires d.controls.start && AllSelected(d.sel)
    ensures var t := Dispatch(d, PressStart(input, midnight, now), g);
      match ScheduleTarget(input, midnight, now)
      case Failure(_) => t == Unchanged(d)
      case Success(target) =>
        && t.step == Step([], Idle)
        && t.next.frames == d.frames + [Frame(d.nextId, target)]
        && t.next.timer == Some(d.nextId)
        && t.next.controls == Controls(false, false, true)
  {
  }

  /** An immediate start sends exactly the request for the current selection. */
  lemma ImmediateSendsOneRequest(d: Detail, g: Gating)
    requires d.controls.immediate && AllSelected(d.sel)
    ensures var t := Dispatch(d, PressImmediate, g);
      && t.step == Step([Prepare(RequestFor(d.sel))], Idle)
      && t.next.controls == Controls(false, false, true)
      && t.next.frames == d.frames
  {
  }

  /** Stopping twice is stopping once: same page, same store. */
  lemma StopGrabbingIdempotent(d: Detail, s: Store)
    ensures StopGrabbing(StopGrabbing(d).next).next == StopGrabbing(d).next
    ensures After(After(s, StopGrabbing(d).step), StopGrabbing(StopGrabbing(d).next).step)
         == After(s, StopGrabbing(d).step)
  {
  }

  /** The prepare reply: a token leads to the jump with the full loop record
      written first; anything else stops without leaving the page. */
  lemma PrepareReplyOutcome(d: Detail, req: PrepareRequest, reply: Reply, now: int,
                            input: Option<nat>, s: Store)
    ensures var t := OnPrepareReply(d, req, reply, now, input);
      && (t.step.action.Navigate? <==> HasToken(reply))
      && (HasToken(reply) ==>
            && t.step.action.target.buyerId == d.sel.buyerId
            && t.step.action.target.token == reply.data.value.token.value
            && After(s, t.step) == Store(true, Some(now), Some(ClickInterval(input)), Some(Snapshot(d.sel))))
      && (!HasToken(reply) ==>
            && t.step.action == Stop
            && !After(s, t.step).looping
            && t.next.timer.None? && !t.next.controls.stop)
  {
  }

  /** With no event in between, an immediate start and its token reply form a
      round trip: the saved snapshot rebuilds exactly the request that was sent,
      and the jump goes to the buyer that was chosen. */
  lemma ImmediateRoundTrip(d: Detail, reply: Reply, now: int, input: Option<nat>, s: Store, g: Gating)
    requires d.controls.immediate && AllSelected(d.sel) && HasToken(reply)
    ensures var t1 := Dispatch(d, PressImmediate, g);
      var t2 := Dispatch(t1.next, PrepareReply(RequestFor(d.sel), reply, now, input), g);
      && t1.step.effects == [Prepare(RequestFor(d.sel))]
      && After(s, t2.step).loopData.Some?
      && Renewal.RequestOf(After(s, t2.step).loopData.value) == RequestFor(d.sel)
      && t2.step.action == Navigate(OrderUrl(d.sel.projectId, Classify(reply).token, Classify(reply).ptoken, d.sel.buyerId))
  {
  }

  /** The selects stay usable while the request is out, and the snapshot is the
      selection when the reply arrives: after a screen change in between, the
      saved record names the new screen and no tier, so it no longer rebuilds
      the request that earned the token. This holds under either gating. */
  lemma SnapshotAtReplyTime(d: Detail, v: string, reply: Reply, now: int, input: Option<nat>,
                            s: Store, g: Gating)
    requires d.controls.immediate && AllSelected(d.sel) && HasToken(reply)
    requires Some(v) != d.sel.screenId
    ensures var t1 := Dispatch(d, PressImmediate, g);
      var t2 := Dispatch(t1.next, ChooseScreen(v), g);
      var t3 := Dispatch(t2.next, PrepareReply(RequestFor(d.sel), reply, now, input), g);
      && t1.step.effects == [Prepare(RequestFor(d.sel))]
      && t2.step == Step([], Idle)
      && t3.step.action.Navigate?
      && After(s, t3.step).loopData == Some(Snapshot(d.sel.(screenId := Some(v), skuId := None)))
      && Renewal.RequestOf(After(s, t3.step).loopData.value) != RequestFor(d.sel)
  {
  }

  // ---------------------------------------------------------------------
  // The countdown

  /** All frames gone and no handle: nothing ever runs again. */
  lemma {:induction false} NoFramesStayQuiet(d: Detail, nows: seq<int>)
    requires d.frames == []
    ensures RunFrames(d, nows) == Unchanged(d)
    decreases |nows|
  {
    if nows != [] {
      NoFramesStayQuiet(OnFrame(d, nows[0]).next, nows[1..]);
    }
  }

  /** With the handle cleared (after a stop), pending callbacks do nothing
      and vanish: a cancelled countdown never sends a request. */
  lemma {:induction false} ClearedTimerNeverFires(d: Detail, nows: seq<int>)
    requires d.timer.None?
    ensures RunFrames(d, nows).step.effects == []
    ensures nows != [] ==> RunFrames(d, nows).next == d.(frames := [])
    decreases |nows|
  {
    if nows != [] {
      CallbacksIgnored(d.(frames := []), d.frames, nows[0]);
      var t := OnFrame(d, nows[0]);
      assert t == Unchanged(d.(frames := []));
      NoFramesStayQuiet(t.next, nows[1..]);
    }
  }

  lemma {:induction false} CallbacksIgnored(d: Detail, due: seq<Frame>, now: int)
    requires d.timer.None?
    ensures RunDue(d, due, now) == Unchanged(d)
    decreases |due|
  {
    if due != [] {
      CallbacksIgnored(d, due[1..], now);
    }
  }

  /** One live countdown frame, owned by the handle. */
  predicate Armed(d: Detail) {
    |d.frames| == 1 && d.timer == Some(d.frames[0].id)
  }

  /** Some frame's clock has reached the target. */
  predicate Due(nows: seq<int>, target: int) {
    exists i :: 0 <= i < |nows| && nows[i] >= target
  }

  /** A frame before the target shows the time left and stays armed for the
      same target; a frame at or after it fires once and stops rescheduling. */
  lemma FrameStep(d: Detail, now: int)
    requires Armed(d)
    ensures var t := OnFrame(d, now);
      && t.next.sel == d.sel
      && (now < d.frames[0].target ==>
            t.step.effects == [] && Armed(t.next) && t.next.frames[0].target == d.frames[0].target)
      && (now >= d.frames[0].target ==>
            t.step.effects == [Prepare(RequestFor(d.sel))] && t.next.frames == [])
  {
    var f := d.frames[0];
    assert d.frames[1..] == [];
    var c := Callback(d.(frames := []), f, now);
    assert RunDue(c.next, d.frames[1..], now) == Unchanged(c.next);
    assert OnFrame(d, now) == Transition(c.next, Step(c.step.effects + [], Idle));
  }

  /** An armed countdown sends its request exactly once if some frame reaches
      the target and never otherwise; it sends nothing else. Applied to every
      prefix of the frames, this also says it never fires before the target. */
  lemma {:induction false} CountdownFiresOnce(d: Detail, nows: seq<int>)
    requires Armed(d)
    ensures var effects := RunFrames(d, nows).step.effects;
      && multiset(effects)[Prepare(RequestFor(d.sel))] == (if Due(nows, d.frames[0].target) then 1 else 0)
      && forall e :: e in effects ==> e == Prepare(RequestFor(d.sel))
    decreases |nows|
  {
    var target := d.frames[0].target;
    if nows != [] {
      FrameStep(d, nows[0]);
      var t := OnFrame(d, nows[0]);
      if nows[0] >= target {
        NoFramesStayQuiet(t.next, nows[1..]);
        assert Due(nows, target) by { assert nows[0] >= target; }
      } else {
        CountdownFiresOnce(t.next, nows[1..]);
        assert Due(nows, target) <==> Due(nows[1..], target) by {
          if Due(nows, target) {
            var i :| 0 <= i < |nows| && nows[i] >= target;
            assert nows[1..][i - 1] >= target;
          }
          if Due(nows[1..], target) {
            var i :| 0 <= i < |nows[1..]| && nows[1..][i] >= target;
            assert nows[i + 1] >= target;
          }
        }
      }
    }
  }

  // ---------------------------------------------------------------------
  // At most one countdown

  /** At most one countdown frame is pending; while one is, the handle owns
      it, the stop button is on and both start buttons are off. */
  predicate OneCountdown(d: Detail) {
    && |d.frames| <= 1
    && (|d.frames| == 1 ==>
          d.timer == Some(d.frames[0].id) && d.controls.stop
          && !d.controls.start && !d.controls.immediate)
  }

  /** Cancelling the only pending frame leaves none. */
  lemma CancelOwned(frames: seq<Frame>, id: nat)
    requires |frames| == 1 && frames[0].id == id
    ensures Cancel(frames, id) == []
  {
    assert frames[1..] == [];
  }

  /** Every event of the corrected page keeps at most one countdown. */
  lemma GuardedEventKeepsOneCountdown(d: Detail, e: Event)
    requires OneCountdown(d)
    ensures OneCountdown(HandleGuarded(d, e).next)
  {
    match e
    case AnimationFrame(now) =>
      if |d.frames| == 1 {
        assert d.frames[1..] == [];
        var c := Callback(d.(frames := []), d.frames[0], now);
        assert RunDue(c.next, d.frames[1..], now) == Unchanged(c.next);
        assert OnFrame(d, now) == Transition(c.next, Step(c.step.effects + [], Idle));
      }
    case PressStop =>
      if |d.frames| == 1 && d.controls.stop {
        CancelOwned(d.frames, d.timer.value);
      }
    case PrepareReply(req, reply, now, input) =>
      if |d.frames| == 1 && !Classify(reply).Ok? {
        CancelOwned(d.frames, d.timer.value);
      }
    case _ =>
  }

  /** The corrected page never has two countdowns, after any events: so one
      scheduled start sends at most one request per frame. */
  lemma {:induction false} GuardedRunKeepsOneCountdown(d: Detail, events: seq<Event>)
    requires OneCountdown(d)
    ensures OneCountdown(Run(d, events, Guarded).next)
    decreases |events|
  {
    if events != [] {
      GuardedEventKeepsOneCountdown(d, events[0]);
      var t := Dispatch(d, events[0], Guarded);
      if !t.step.action.Navigate? {
        GuardedRunKeepsOneCountdown(t.next, events[1..]);
      }
    }
  }

  /** An event with no effect and no navigation just hands the page on. */
  lemma SilentStep(d: Detail, events: seq<Event>, g: Gating)
    requires events != [] && Dispatch(d, events[0], g).step == Step([], Idle)
    ensures Run(d, events, g) == Run(Dispatch(d, events[0], g).next, events[1..], g)
  {
    var rest := Run(Dispatch(d, events[0], g).next, events[1..], g);
    assert [] + rest.step.effects == rest.step.effects;
  }

  // A scripted run: choose everything, schedule 20:00:00.000, switch to
  // another buyer, schedule again, and let a frame run at 20:00 (clocks are
  // milliseconds after midnight).

  function ScriptSel(): Selection {
    Selection(Some("p1"), Some("s1"), Some("k1"), Some("b1"))
  }

  /** The selection after switching to the second buyer. */
  function ScriptSel2(): Selection {
    ScriptSel().(buyerId := Some("b2"))
  }

  function ScriptStart(now: int): Event {
    PressStart(Format(20, 0, 0, 0), 0, now)
  }

  function ScriptedDoubleStart(): seq<Event> {
    [ChooseScreen("s1"), ChooseSku("k1"), ChooseBuyer("b1"), ScriptStart(1000),
     ChooseBuyer("b2"), ScriptStart(2000), AnimationFrame(72000000)]
  }

  function ScriptedRequest(): PrepareRequest {
    RequestFor(ScriptSel())
  }

  /** The page with all three chosen and no countdown yet. */
  function Chosen(): Detail {
    Detail(ScriptSel(), Controls(true, true, false), None, [], 1)
  }

  /** The page after the first scheduled start. */
  function Armed1(): Detail {
    Detail(ScriptSel(), Controls(false, false, true), Some(1), [Frame(1, 72000000)], 2)
  }

  /** The page as written after the second scheduled start. */
  function Armed2(): Detail {
    Detail(ScriptSel2(), Controls(false, false, true), Some(2), [Frame(1, 72000000), Frame(2, 72000000)], 3)
  }

  lemma ScriptChoices(g: Gating)
    ensures Run(Open(Some("p1")), ScriptedDoubleStart(), g)
         == Run(Chosen(), ScriptedDoubleStart()[3..], g)
    ensures Run(Open(Some("p1")), ScriptedDoubleStart()[..6], g)
         == Run(Chosen(), ScriptedDoubleStart()[3..6], g)
  {
    var d0 := Open(Some("p1"));
    var d1 := d0.(sel := d0.sel.(screenId := Some("s1")));
    var d2 := d1.(sel := d1.sel.(skuId := Some("k1")));
    var es := ScriptedDoubleStart();
    var pre := es[..6];
    assert Dispatch(d0, es[0], g).next == d1;
    assert Dispatch(d1, es[1], g).next == d2;
    assert Dispatch(d2, es[2], g).next == Chosen();
    SilentStep(d0, es, g);
    SilentStep(d1, es[1..], g);
    assert es[1..][1..] == es[2..];
    SilentStep(d2, es[2..], g);
    assert es[2..][1..] == es[3..];
    SilentStep(d0, pre, g);
    SilentStep(d1, pre[1..], g);
    assert pre[1..][1..] == pre[2..];
    SilentStep(d2, pre[2..], g);
    assert pre[2..][1..] == pre[3..] == es[3..6];
  }

  lemma ScriptFirstStart(g: Gating)
    ensures Dispatch(Chosen(), ScriptStart(1000), g) == Unchanged(Armed1())
  {
    ParseFormat(20, 0, 0, 0);
    assert ScheduleTarget(Format(20, 0, 0, 0), 0, 1000) == Success(72000000);
  }

  lemma ScriptSecondStartAsWritten()
    ensures Dispatch(Armed1(), ChooseBuyer("b2"), AsWritten) == Unchanged(Armed1().(sel := ScriptSel2(), controls := Controls(true, true, true)))
    ensures Dispatch(Armed1().(sel := ScriptSel2(), controls := Controls(true, true, true)), ScriptStart(2000), AsWritten) == Unchanged(Armed2())
  {
    ParseFormat(20, 0, 0, 0);
    assert ScheduleTarget(Format(20, 0, 0, 0), 0, 2000) == Success(72000000);
  }

  lemma ScriptFrameAsWritten()
    ensures OnFrame(Armed2(), 72000000).step.effects == [Prepare(ScriptedRequest()), Prepare(ScriptedRequest())]
  {
    var d := Armed2();
    var c1 := Callback(d.(frames := []), d.frames[0], 72000000);
    var c2 := Callback(c1.next, d.frames[1], 72000000);
    assert RunDue(c2.next, d.frames[1..][1..], 72000000) == Unchanged(c2.next);
    assert RunDue(c1.next, d.frames[1..], 72000000).step.effects == c2.step.effects + [];
  }

  function ScriptTail(): seq<Event> {
    [ScriptStart(1000), ChooseBuyer("b2"), ScriptStart(2000), AnimationFrame(72000000)]
  }

  function ScriptMiddle(): seq<Event> {
    [ScriptStart(1000), ChooseBuyer("b2"), ScriptStart(2000)]
  }

  lemma ScriptSlices()
    ensures ScriptedDoubleStart()[3..] == ScriptTail()
    ensures ScriptedDoubleStart()[3..6] == ScriptMiddle()
  {
  }

  lemma MiddleAsWritten()
    ensures Run(Chosen(), ScriptMiddle(), AsWritten).next == Armed2()
  {
    var g := AsWritten;
    var reopened := Armed1().(sel := ScriptSel2(), controls := Controls(true, true, true));
    ScriptFirstStart(g);
    ScriptSecondStartAsWritten();
    SilentStep(Chosen(), ScriptMiddle(), g);
    assert ScriptMiddle()[1..] == [ChooseBuyer("b2"), ScriptStart(2000)];
    SilentStep(Armed1(), [ChooseBuyer("b2"), ScriptStart(2000)], g);
    assert [ChooseBuyer("b2"), ScriptStart(2000)][1..] == [ScriptStart(2000)];
    SilentStep(reopened, [ScriptStart(2000)], g);
  }

  lemma TailAsWritten()
    ensures Run(Chosen(), ScriptTail(), AsWritten).step.effects == [Prepare(ScriptedRequest()), Prepare(ScriptedRequest())]
  {
    var g := AsWritten;
    var reopened := Armed1().(sel := ScriptSel2(), controls := Controls(true, true, true));
    var last := [AnimationFrame(72000000)];
    ScriptFirstStart(g);
    ScriptSecondStartAsWritten();
    SilentStep(Chosen(), ScriptTail(), g);
    assert ScriptTail()[1..] == [ChooseBuyer("b2"), ScriptStart(2000)] + last;
    SilentStep(Armed1(), [ChooseBuyer("b2"), ScriptStart(2000)] + last, g);
    assert ([ChooseBuyer("b2"), ScriptStart(2000)] + last)[1..] == [ScriptStart(2000)] + last;
    SilentStep(reopened, [ScriptStart(2000)] + last, g);
    assert ([ScriptStart(2000)] + last)[1..] == last;
    ScriptFrameAsWritten();
    assert Run(Armed2(), last, g).step.effects == OnFrame(Armed2(), 72000000).step.effects + [];
  }

  lemma MiddleGuarded()
    ensures Run(Chosen(), ScriptMiddle(), Guarded).next == Armed1().(sel := ScriptSel2())
  {
    var g := Guarded;
    ScriptFirstStart(g);
    var moved := Armed1().(sel := ScriptSel2());
    assert Dispatch(Armed1(), ChooseBuyer("b2"), g) == Unchanged(moved);
    assert Dispatch(moved, ScriptStart(2000), g) == Unchanged(moved);
    SilentStep(Chosen(), ScriptMiddle(), g);
    assert ScriptMiddle()[1..] == [ChooseBuyer("b2"), ScriptStart(2000)];
    SilentStep(Armed1(), [ChooseBuyer("b2"), ScriptStart(2000)], g);
    assert [ChooseBuyer("b2"), ScriptStart(2000)][1..] == [ScriptStart(2000)];
    SilentStep(moved, [ScriptStart(2000)], g);
  }

  lemma TailGuarded()
    ensures Run(Chosen(), ScriptTail(), Guarded).step.effects == [Prepare(ScriptedRequest())]
  {
    var g := Guarded;
    var last := [AnimationFrame(72000000)];
    ScriptFirstStart(g);
    var moved := Armed1().(sel := ScriptSel2());
    assert Dispatch(Armed1(), ChooseBuyer("b2"), g) == Unchanged(moved);
    assert Dispatch(moved, ScriptStart(2000), g) == Unchanged(moved);
    SilentStep(Chosen(), ScriptTail(), g);
    assert ScriptTail()[1..] == [ChooseBuyer("b2"), ScriptStart(2000)] + last;
    SilentStep(Armed1(), [ChooseBuyer("b2"), ScriptStart(2000)] + last, g);
    assert ([ChooseBuyer("b2"), ScriptStart(2000)] + last)[1..] == [ScriptStart(2000)] + last;
    SilentStep(moved, [ScriptStart(2000)] + last, g);
    assert ([ScriptStart(2000)] + last)[1..] == last;
    FrameStep(moved, 72000000);
    assert Run(moved, last, g).step.effects == OnFrame(moved, 72000000).step.effects + [];
  }

  /** On the page as written, switching the buyer during a countdown enables
      the start button again, and a second start leaves two countdowns that
      both send the prepare request when the target is reached. */
  lemma DoubleCountdownAsWritten()
    ensures |Run(Open(Some("p1")), ScriptedDoubleStart()[..6], AsWritten).next.frames| == 2
    ensures multiset(Run(Open(Some("p1")), ScriptedDoubleStart(), AsWritten).step.effects)[Prepare(ScriptedRequest())] == 2
  {
    ScriptChoices(AsWritten);
    ScriptSlices();
    MiddleAsWritten();
    TailAsWritten();
  }

  /** The corrected page, on the same events, keeps one countdown and sends one request. */
  lemma SingleCountdownGuarded()
    ensures |Run(Open(Some("p1")), ScriptedDoubleStart()[..6], Guarded).next.frames| == 1
    ensures multiset(Run(Open(Some("p1")), ScriptedDoubleStart(), Guarded).step.effects)[Prepare(ScriptedRequest())] == 1
  {
    ScriptChoices(Guarded);
    ScriptSlices();
    MiddleGuarded();
    TailGuarded();
  }
}

=== FILE: flow.dfy ===
/** The loop across page loads: what one page leaves in the store decides
    what the next page does. Each lemma joins two per-load transitions through
    the store the first one leaves behind. */
module Flow {
  import opened Common
  import opened Remote
  import opened LoopStore
  import opened Waiter
  import opened Attempt
  import opened Renewal
  import opened ConfirmLoop
  import opened Router
  import Config

  /** After a successful attempt, a confirm load up to three minutes later
      clicks with the chosen interval; a later one renews, sending the request
      for the selection `sel` that was saved (the page's selection when the
      reply arrived) and jumping to that selection's buyer. */
  lemma AttemptThenConfirm(sel: Selection, projectId: Id, token: string, ptoken: Option<string>,
                           now: int, input: Option<nat>, s: Store, later: int)
    ensures var s1 := After(s, NavigateToConfirmPage(sel, projectId, token, ptoken, now, input));
      && (later - now <= Config.LinkRefreshTime ==> Decide(s1, later) == Clicking(ClickInterval(input)))
      && (later - now > Config.LinkRefreshTime ==>
            && Decide(s1, later) == Renewing
            && RequestOf(s1.loopData.value) == RequestFor(sel)
            && s1.loopData.value.buyerId == sel.buyerId)
  {
  }

  /** A renewal that jumps leaves the snapshot and interval as they were and a
      fresh clock, so the next load within three minutes of the reply clicks
      again; if the stop button was pressed meanwhile, the next load is idle. */
  lemma RenewalThenConfirm(s: Store, reply: Reply, replyTime: int, stopPressed: bool, obs: ConfirmObs)
    requires s.looping && s.loopData.Some? && Classify(reply).Ok?
    requires obs.now - replyTime <= Config.LinkRefreshTime
    ensures var s1 := After(s, Renew(s, reply, replyTime, stopPressed));
      && s1.loopData == s.loopData && s1.interval == s.interval
      && (!stopPressed ==> Decide(s1, obs.now) == Clicking(s.interval.GetOr(Config.DefaultClickInterval)))
      && (stopPressed ==> OnConfirmLoad(s1, obs) == Step([], Idle))
  {
  }

  /** After the payment page, no confirm load does anything, whatever the store held. */
  lemma PaymentEndsLoop(s: Store, obs: ConfirmObs)
    ensures OnConfirmLoad(After(s, RunOnPaymentPage()), obs) == Step([], Idle)
  {
  }

  /** A load that ends in a reload leaves the store exactly as it found it, so
      the loop goes on with the same start time, interval and snapshot. */
  lemma ReloadKeepsRecord(s: Store, obs: ConfirmObs)
    requires OnConfirmLoad(s, obs).action.Reload?
    ensures After(s, OnConfirmLoad(s, obs)) == s
    ensures Decide(s, obs.now).Clicking?
  {
  }

  /** A load that stops, or whose delayed check declines to reload, leaves the
      flag off: the next load is idle. */
  lemma StopIsFinal(s: Store, obs: ConfirmObs, next: ConfirmObs)
    requires OnConfirmLoad(s, obs).action.Stop? || OnConfirmLoad(s, obs).action.NoReload?
    ensures OnConfirmLoad(After(s, OnConfirmLoad(s, obs)), next) == Step([], Idle)
  {
  }

  /** Reloads never let a link grow stale without noticing: along a chain of
      reloading loads the store stays the same, so the first load more than
      three minutes after the start takes the renewal path. */
  lemma {:induction false} ReloadChainRenews(s: Store, loads: seq<ConfirmObs>)
    requires |loads| > 0
    requires forall i :: 0 <= i < |loads| - 1 ==> OnConfirmLoad(s, loads[i]).action.Reload?
    requires s.startTime.Some? && loads[|loads| - 1].now - s.startTime.value > Config.LinkRefreshTime
    requires s.looping
    ensures ChainStore(s, loads[..|loads| - 1]) == s
    ensures Decide(ChainStore(s, loads[..|loads| - 1]), loads[|loads| - 1].now) == Renewing
    decreases |loads|
  {
    var prefix := loads[..|loads| - 1];
    ReloadChainKeepsStore(s, prefix);
  }

  /** The store after a chain of confirm loads, each reading what the last one left. */
  function ChainStore(s: Store, loads: seq<ConfirmObs>): Store
    decreases |loads|
  {
    if loads == [] then s
    else ChainStore(After(s, OnConfirmLoad(s, loads[0])), loads[1..])
  }

  lemma {:induction false} ReloadChainKeepsStore(s: Store, loads: seq<ConfirmObs>)
    requires forall i :: 0 <= i < |loads| ==> OnConfirmLoad(s, loads[i]).action.Reload?
    ensures ChainStore(s, loads) == s
    decreases |loads|
  {
    if loads != [] {
      ReloadKeepsRecord(s, loads[0]);
      ReloadChainKeepsStore(s, loads[1..]);
    }
  }

  /** On a profile that never ran the script, every confirm load does nothing. */
  lemma FreshProfileIdle(obs: ConfirmObs)
    ensures OnConfirmLoad(Fresh, obs) == Step([], Idle)
    ensures Decide(Fresh, obs.now) == NoTask
  {
  }

  // Concrete runs: a token reply, a click 1 ms in, a stale link, the payment page.

  function ExampleSel(): Selection {
    Selection(Some("P1"), Some("S1"), Some("K1"), Some("B1"))
  }

  /** A token reply on a full selection leaves the loop on with the whole selection saved. */
  lemma ExampleAttempt(s: Store, now: int)
    ensures var step := NavigateToConfirmPage(ExampleSel(), Some("P1"), "T1", None, now, None);
      && step.action.Navigate? && step.action.target.token == "T1"
      && After(s, step).looping
      && After(s, step).loopData == Some(LoopData(Some("P1"), Some("S1"), Some("K1"), Some("B1")))
  {
  }

  /** A load 1 ms into the loop with an enabled submit control on the first
      poll clicks it and reloads after 500 ms. */
  lemma ExampleClick(snapshot: LoopData, now: int, reply: Reply)
    ensures var s := Store(true, Some(now - 1), Some(500), Some(snapshot));
      var obs := ConfirmObs(now, false, [Present(Control(false))], false, reply, now);
      && Decide(s, now) == Clicking(500)
      && OnConfirmLoad(s, obs) == Step([Click], Reload(500))
  {
    var s := Store(true, Some(now - 1), Some(500), Some(snapshot));
    var polls := [Present(Control(false))];
    assert PollAt(polls, 0) == Present(Control(false));
    assert WaitForElement(polls, Config.SubmitWaitTimeout) == Found(Control(false), 0);
    assert ClicksSubmit(polls);
    assert Replay(s, [Click]) == s by {
      ReplayOne(s, Click);
    }
  }

  /** A load four minutes into the loop renews instead of clicking, and a load
      exactly three minutes in still clicks. */
  lemma ExampleStaleAndBoundary(s: Store, now: int)
    requires s.looping
    ensures Decide(s.(startTime := Some(now - 4 * 60 * 1000)), now) == Renewing
    ensures Decide(s.(startTime := Some(now - Config.LinkRefreshTime)), now).Clicking?
  {
  }

  /** The payment page clears the loop whatever came before. */
  lemma ExamplePayment(s: Store, url: string, obs: ConfirmObs)
    requires Contains(url, Config.PaymentPagePattern)
    ensures !After(s, OnLoad(s, url, obs)).looping && After(s, OnLoad(s, url, obs)).loopData.None?
  {
  }
}

=== FILE: remote.dfy ===
/** The order-preparation endpoint seen from the core: what is sent, what can
    come back, and how a reply is judged. The transport itself is not modelled. */
module Remote {
  import opened Common
  import Config

  /** The fields of the `order/prepare` payload that vary between calls
      (the rest are fixed: order_type 1, count 1, newRisk, requestSource). */
  datatype PrepareRequest = PrepareRequest(projectId: Id, screenId: Id, skuId: Id)

  /** The `data` object of a prepare reply, reduced to the two fields read. */
  datatype PrepareData = PrepareData(token: Option<string>, ptoken: Option<string>)

  /** What the transport delivers: `onerror`, or `onload` with a parsed body
      (`data` and `message` may each be missing). */
  datatype Reply =
    | TransportFailed
    | Loaded(data: Option<PrepareData>, message: Option<string>)

  /** The three outcomes the core distinguishes. */
  datatype Outcome =
    | Ok(token: string, ptoken: Option<string>)
    | Rejected(message: string)
    | NetworkError

  /** The confirm-page link `CONFIG.finalOrderUrl(projectId, token, ptoken, buyerId)`,
      kept as the record of its arguments. */
  datatype OrderUrl = OrderUrl(projectId: Id, token: string, ptoken: Option<string>, buyerId: Id)

  /** A reply counts as success only when `respData.data.token` is truthy. */
  predicate HasToken(reply: Reply) {
    reply.Loaded? && reply.data.Some? && Truthy(reply.data.value.token)
  }

  /** Judges a prepare reply the way both prepare handlers do. */
  function Classify(reply: Reply): (o: Outcome)
    ensures o.Ok? <==> HasToken(reply)
    ensures o.NetworkError? <==> reply.TransportFailed?
    ensures o.Ok? ==> o.token == reply.data.value.token.value && o.ptoken == reply.data.value.ptoken
    ensures o.Ok? ==> o.token != ""
    // a rejection always carries a reason the operator can read
    ensures o.Rejected? ==> o.message != ""
    ensures o.Rejected? && Truthy(reply.message) ==> o.message == reply.message.value
    ensures o.Rejected? && !Truthy(reply.message) ==> o.message == Config.UnknownError
  {
    match reply
    case TransportFailed => NetworkError
    case Loaded(data, message) =>
      if data.Some? && Truthy(data.value.token) then
        Ok(data.value.token.value, data.value.ptoken)
      else if Truthy(message) then
        Rejected(message.value)
      else
        Rejected(Config.UnknownError)
  }
}

=== FILE: renewal.dfy ===
/** Link renewal (`reExecuteApiFlow`): request a fresh order link from the
    persisted snapshot when the current one is judged stale. */
module Renewal {
  import opened Common
  import opened Remote
  import opened LoopStore

  /** The prepare request rebuilt from the persisted snapshot. */
  function RequestOf(d: LoopData): PrepareRequest {
    PrepareRequest(d.projectId, d.screenId, d.skuId)
  }

  /** The renewal of one confirm-page load. `reply` is the prepare reply and
      `replyTime` the clock when it arrives; `stopPressed` says the stop-loop
      button was pressed while the request was out. */
  function Renew(store: Store, reply: Reply, replyTime: int, stopPressed: bool): (step: Step)
    // without a snapshot: stop the loop, send nothing, stay
    ensures store.loopData.None? ==> step == Step([Persist(SetLooping(false))], Stop)
    // with one: exactly one request, rebuilt from it, goes out first
    ensures store.loopData.Some? ==>
      && |step.effects| > 0
      && step.effects[0] == Prepare(RequestOf(store.loopData.value))
      && NoRequest(step.effects[1..])
    ensures step.action.Navigate? <==> store.loopData.Some? && Classify(reply).Ok?
    // success: the clock is reset before the jump, and nothing else changes
    ensures step.action.Navigate? ==>
      var d, o := store.loopData.value, Classify(reply);
      && step.action.target == OrderUrl(d.projectId, o.token, o.ptoken, d.buyerId)
      && After(store, step) == store.(startTime := Some(replyTime), looping := store.looping && !stopPressed)
    // any failure: the loop is switched off and the page stays
    ensures !step.action.Navigate? ==> step.action == Stop && After(store, step) == store.(looping := false)
  {
    match store.loopData
    case None =>
      ReplayOne(store, Persist(SetLooping(false)));
      Step([Persist(SetLooping(false))], Stop)
    case Some(d) =>
      var stop := if stopPressed then [Persist(SetLooping(false))] else [];
      var sent := [Prepare(RequestOf(d))] + stop;
      var result :=
        match Classify(reply)
        case Ok(token, ptoken) => Persist(SetStartTime(replyTime))
        case _ => Persist(SetLooping(false));
      SentWrites(store, sent, stop, result, d, stopPressed);
      Step(sent + [result],
           match Classify(reply)
           case Ok(token, ptoken) => Navigate(OrderUrl(d.projectId, token, ptoken, d.buyerId))
           case _ => Stop)
  }

  /** The store after the request, the optional stop-button write and the reply's write. */
  lemma SentWrites(store: Store, sent: seq<Effect>, stop: seq<Effect>, result: Effect, d: LoopData, stopPressed: bool)
    requires stop == if stopPressed then [Persist(SetLooping(false))] else []
    requires sent == [Prepare(RequestOf(d))] + stop
    requires result.Persist?
    ensures Replay(store, sent + [result]) == Put(store.(looping := store.looping && !stopPressed), result.w)
    ensures (sent + [result])[1..] == stop + [result]
  {
    ReplayAppend(store, sent, [result]);
    ReplayAppend(store, [Prepare(RequestOf(d))], stop);
    ReplayOne(store, Prepare(RequestOf(d)));
    if stopPressed {
      ReplayOne(store, stop[0]);
    }
    ReplayOne(Replay(store, sent), result);
    assert (sent + [result])[1..] == stop + [result];
  }
}

=== FILE: router.dfy ===
/** Page routing (`handlePageRouting`) and the payment-page handler. */
module Router {
  import opened Common
  import opened LoopStore
  import Config
  import ConfirmLoop

  /** The handlers a page load can dispatch to. */
  datatype Handler = Payment | Detail | Confirm | NoHandler

  predicate IsPaymentUrl(url: string) {
    Contains(url, Config.PaymentPagePattern)
  }

  predicate IsDetailUrl(url: string) {
    || Contains(url, Config.DetailPatternPlatform)
    || Contains(url, Config.DetailPatternMallDayu)
    || Contains(url, Config.DetailPatternNeulNext)
  }

  predicate IsConfirmUrl(url: string) {
    Contains(url, Config.ConfirmPagePattern)
  }

  /** Every handler whose pattern the URL contains, regardless of order. */
  function Matching(url: string): set<Handler> {
    (if IsPaymentUrl(url) then {Payment} else {})
    + (if IsDetailUrl(url) then {Detail} else {})
    + (if IsConfirmUrl(url) then {Confirm} else {})
  }

  /** The order in which the patterns are tried. */
  function Rank(h: Handler): nat {
    match h
    case Payment => 0
    case Detail => 1
    case Confirm => 2
    case NoHandler => 3
  }

  /** `handlePageRouting`: the first pattern in order that the URL contains
      picks the one handler that runs; none matching runs nothing. */
  function Route(url: string): (h: Handler)
    ensures h == NoHandler <==> Matching(url) == {}
    ensures h != NoHandler ==> h in Matching(url)
    ensures forall g :: g in Matching(url) ==> Rank(h) <= Rank(g)
  {
    if IsPaymentUrl(url) then Payment
    else if IsDetailUrl(url) then Detail
    else if IsConfirmUrl(url) then Confirm
    else NoHandler
  }

  /** The second detail pattern is a superstring of the third, so testing it
      never changes the route. */
  lemma MallDayuPatternRedundant(url: string)
    ensures IsDetailUrl(url)
        <==> Contains(url, Config.DetailPatternPlatform) || Contains(url, Config.DetailPatternNeulNext)
  {
    if Contains(url, Config.DetailPatternMallDayu) {
      var pattern := Config.DetailPatternMallDayu;
      assert pattern[10..] == Config.DetailPatternNeulNext;
      assert OccursAt(pattern, Config.DetailPatternNeulNext, 10);
      ContainsIffOccurs(pattern, Config.DetailPatternNeulNext);
      ContainsTransitive(url, pattern, Config.DetailPatternNeulNext);
    }
  }

  /** `runOnPaymentPage`: clear the flag and the snapshot, whatever came before. */
  function RunOnPaymentPage(): (step: Step)
    ensures forall s: Store :: After(s, step) == s.(looping := false, loopData := None)
    ensures NoRequest(step.effects) && step.action == Idle
  {
    var effects := [Persist(SetLooping(false)), Persist(SetLoopData(None))];
    assert forall s: Store :: Replay(s, effects) == s.(looping := false, loopData := None) by {
      forall s: Store ensures Replay(s, effects) == s.(looping := false, loopData := None) {
        ReplayTwo(s, effects[0], effects[1]);
      }
    }
    Step(effects, Idle)
  }

  /** One page load on `url`. The detail page only builds its panel and then
      waits for the user; its events are `DetailPage.Dispatch` under the
      script's gating (`AsWritten`). */
  function OnLoad(store: Store, url: string, obs: ConfirmLoop.ConfirmObs): (step: Step)
    ensures Route(url) == NoHandler || Route(url) == Detail ==> step == Step([], Idle)
    ensures Route(url) == Payment ==>
      After(store, step) == store.(looping := false, loopData := None) && NoRequest(step.effects) && step.action == Idle
    ensures Route(url) == Confirm ==> step == ConfirmLoop.OnConfirmLoad(store, obs)
  {
    match Route(url)
    case Payment => RunOnPaymentPage()
    case Detail => Step([], Idle)
    case Confirm => ConfirmLoop.OnConfirmLoad(store, obs)
    case NoHandler => Step([], Idle)
  }
}

=== FILE: schedule.dfy ===
/** The countdown scheduler's arithmetic: the `HH:MM:SS.mmm` start time, the
    target instant, and the per-tick decision with its h/m/s/ms display. */
module Schedule {
  import opened Common

  const HourMs: int := 3600000
  const MinuteMs: int := 60000
  const SecondMs: int := 1000

  predicate IsDigit(c: char) {
    '0' <= c <= '9'
  }

  function DigitValue(c: char): nat
    requires IsDigit(c)
  {
    c as int - '0' as int
  }

  function DigitChar(n: nat): (c: char)
    requires n < 10
    ensures IsDigit(c) && DigitValue(c) == n
  {
    ('0' as int + n) as char
  }

  /** The start-time pattern `^\d{2}:\d{2}:\d{2}\.\d{3}$` (JavaScript `\d` is
      ASCII 0-9, and `$` without the `m` flag only matches at the end). */
  predicate WellFormed(s: string) {
    && |s| == 12
    && IsDigit(s[0]) && IsDigit(s[1]) && s[2] == ':'
    && IsDigit(s[3]) && IsDigit(s[4]) && s[5] == ':'
    && IsDigit(s[6]) && IsDigit(s[7]) && s[8] == '.'
    && IsDigit(s[9]) && IsDigit(s[10]) && IsDigit(s[11])
  }

  /** A time of day as milliseconds after midnight; fields past their usual
      range carry over, as `new Date(y, mo, d, h, m, s, ms)` does. */
  function Offset(h: int, m: int, sec: int, ms: int): int {
    h * HourMs + m * MinuteMs + sec * SecondMs + ms
  }

  /** The number written by the two digits at `i`. */
  function Two(s: string, i: nat): nat
    requires i + 1 < |s| && IsDigit(s[i]) && IsDigit(s[i + 1])
  {
    10 * DigitValue(s[i]) + DigitValue(s[i + 1])
  }

  /** The number written by the three digits at `i`. */
  function Three(s: string, i: nat): nat
    requires i + 2 < |s| && IsDigit(s[i]) && IsDigit(s[i + 1]) && IsDigit(s[i + 2])
  {
    100 * DigitValue(s[i]) + 10 * DigitValue(s[i + 1]) + DigitValue(s[i + 2])
  }

  /** The offset from midnight named by the input. For a well-formed input,
      splitting on ':' and then '.' yields exactly the fields at positions
      0, 3, 6 and 9, and `Date` reads each as a decimal number. */
  function ParseTime(s: string): (r: Option<int>)
    ensures r.Some? <==> WellFormed(s)
    ensures r.Some? ==> 0 <= r.value <= Offset(99, 99, 99, 999)
  {
    if WellFormed(s) then Some(Offset(Two(s, 0), Two(s, 3), Two(s, 6), Three(s, 9)))
    else None
  }

  function Pad2(n: nat): (s: string)
    requires n < 100
    ensures |s| == 2 && IsDigit(s[0]) && IsDigit(s[1]) && Two(s, 0) == n
  {
    [DigitChar(n / 10), DigitChar(n % 10)]
  }

  function Pad3(n: nat): (s: string)
    requires n < 1000
    ensures |s| == 3 && IsDigit(s[0]) && IsDigit(s[1]) && IsDigit(s[2]) && Three(s, 0) == n
  {
    [DigitChar(n / 100), DigitChar(n / 10 % 10), DigitChar(n % 10)]
  }

  /** `HH:MM:SS.mmm` with each field zero-padded (`padStart`). */
  function Format(h: nat, m: nat, sec: nat, ms: nat): (s: string)
    requires h < 100 && m < 100 && sec < 100 && ms < 1000
  {
    Pad2(h) + ":" + Pad2(m) + ":" + Pad2(sec) + "." + Pad3(ms)
  }

  /** Formatting then parsing gives back the offset of the fields. */
  lemma ParseFormat(h: nat, m: nat, sec: nat, ms: nat)
    requires h < 100 && m < 100 && sec < 100 && ms < 1000
    ensures WellFormed(Format(h, m, sec, ms))
    ensures ParseTime(Format(h, m, sec, ms)) == Some(Offset(h, m, sec, ms))
  {
    var s := Format(h, m, sec, ms);
    var a, b, c, d := Pad2(h), Pad2(m), Pad2(sec), Pad3(ms);
    assert s[0] == a[0] && s[1] == a[1];
    assert s[3] == b[0] && s[4] == b[1];
    assert s[6] == c[0] && s[7] == c[1];
    assert s[9] == d[0] && s[10] == d[1] && s[11] == d[2];
  }

  lemma DigitRoundTrip(c: char)
    requires IsDigit(c)
    ensures DigitChar(DigitValue(c)) == c
  {
  }

  /** Two digits are the padding of the number they write. */
  lemma Pad2Of(c0: char, c1: char)
    requires IsDigit(c0) && IsDigit(c1)
    ensures 10 * DigitValue(c0) + DigitValue(c1) < 100
    ensures Pad2(10 * DigitValue(c0) + DigitValue(c1)) == [c0, c1]
  {
    var n := 10 * DigitValue(c0) + DigitValue(c1);
    assert n / 10 == DigitValue(c0) && n % 10 == DigitValue(c1);
    DigitRoundTrip(c0);
    DigitRoundTrip(c1);
  }

  /** Three digits are the padding of the number they write. */
  lemma Pad3Of(c0: char, c1: char, c2: char)
    requires IsDigit(c0) && IsDigit(c1) && IsDigit(c2)
    ensures 100 * DigitValue(c0) + 10 * DigitValue(c1) + DigitValue(c2) < 1000
    ensures Pad3(100 * DigitValue(c0) + 10 * DigitValue(c1) + DigitValue(c2)) == [c0, c1, c2]
  {
    var n := 100 * DigitValue(c0) + 10 * DigitValue(c1) + DigitValue(c2);
    assert n / 100 == DigitValue(c0) && n / 10 % 10 == DigitValue(c1) && n % 10 == DigitValue(c2);
    DigitRoundTrip(c0);
    DigitRoundTrip(c1);
    DigitRoundTrip(c2);
  }

  /** A well-formed input is the formatting of its own fields: the pattern
      admits nothing that `Format` cannot write. */
  lemma FormatFields(s: string)
    requires WellFormed(s)
    ensures Two(s, 0) < 100 && Two(s, 3) < 100 && Two(s, 6) < 100 && Three(s, 9) < 1000
    ensures Format(Two(s, 0), Two(s, 3), Two(s, 6), Three(s, 9)) == s
  {
    Pad2Of(s[0], s[1]);
    Pad2Of(s[3], s[4]);
    Pad2Of(s[6], s[7]);
    Pad3Of(s[9], s[10], s[11]);
    assert s == [s[0], s[1]] + ":" + [s[3], s[4]] + ":" + [s[6], s[7]] + "." + [s[9], s[10], s[11]];
  }

  /** Why a scheduled start was refused. */
  datatype ScheduleError = Malformed | NotInFuture

  /** The target instant of a scheduled start: today's `midnight` plus the
      input's offset, refused unless the input is well formed and the target
      is strictly after `now`. */
  function ScheduleTarget(input: string, midnight: int, now: int): (r: Result<int, ScheduleError>)
    ensures r == Failure(Malformed) <==> !WellFormed(input)
    ensures r == Failure(NotInFuture) <==> WellFormed(input) && midnight + ParseTime(input).value <= now
    ensures r.Success? ==> now < r.value && ParseTime(input) == Some(r.value - midnight)
  {
    match ParseTime(input)
    case None => Failure(Malformed)
    case Some(offset) =>
      var target := midnight + offset;
      if target <= now then Failure(NotInFuture) else Success(target)
  }

  /** What one animation-frame tick of the countdown does. */
  datatype TickResult =
    | Ignored                                 // the timer handle was cleared
    | Fire                                    // target reached: run the attempt, no new frame
    | Show(h: nat, m: nat, sec: nat, ms: nat) // display the remaining time, request a new frame

  /** The display of a positive remaining time, field by field as the script
      computes it (`Math.floor` and `%` agree with Euclidean division here). */
  function Parts(timeLeft: int): (p: TickResult)
    requires timeLeft > 0
    ensures p.Show?
    ensures Offset(p.h, p.m, p.sec, p.ms) == timeLeft
    ensures p.m < 60 && p.sec < 60 && p.ms < 1000
  {
    var h := timeLeft / HourMs;
    var m := timeLeft % HourMs / MinuteMs;
    var sec := timeLeft % MinuteMs / SecondMs;
    var ms := timeLeft % SecondMs;
    assert timeLeft % HourMs == m * MinuteMs + timeLeft % MinuteMs;
    assert timeLeft % MinuteMs == sec * SecondMs + ms;
    Show(h, m, sec, ms)
  }

  /** The display is the only decomposition of the remaining time with
      minutes and seconds below 60 and milliseconds below 1000. */
  lemma PartsUnique(timeLeft: int, h: nat, m: nat, sec: nat, ms: nat)
    requires timeLeft > 0
    requires m < 60 && sec < 60 && ms < 1000
    requires Offset(h, m, sec, ms) == timeLeft
    ensures Parts(timeLeft) == Show(h, m, sec, ms)
  {
    var p := Parts(timeLeft);
    assert m * MinuteMs + sec * SecondMs + ms < HourMs;
    assert p.m * MinuteMs + p.sec * SecondMs + p.ms < HourMs;
    assert p.h == h;
    assert p.sec * SecondMs + p.ms < MinuteMs;
    assert p.m == m;
    assert p.sec == sec;
  }

  /** `updateCountdownDisplay` for one frame: nothing once the handle is
      cleared; fire when no time is left; otherwise show the remaining time. */
  function Tick(timerSet: bool, target: int, now: int): (r: TickResult)
    ensures !timerSet ==> r == Ignored
    ensures timerSet ==> (r == Fire <==> target - now <= 0)
    ensures timerSet && target - now > 0 ==> r.Show?
    ensures r.Show? ==> (timerSet && target - now > 0
                         && Offset(r.h, r.m, r.sec, r.ms) == target - now
                         && r.m < 60 && r.sec < 60 && r.ms < 1000)
  {
    if !timerSet then Ignored
    else if target - now <= 0 then Fire
    else Parts(target - now)
  }

  /** The clock part of the countdown text, when the hours fit in two digits. */
  function ClockText(timeLeft: int): string
    requires 0 < timeLeft < 100 * HourMs
  {
    var p := Parts(timeLeft);
    Format(p.h, p.m, p.sec, p.ms)
  }

  /** Reading the countdown text back as a start time gives the remaining time. */
  lemma ClockTextRoundTrip(timeLeft: int)
    requires 0 < timeLeft < 100 * HourMs
    ensures ParseTime(ClockText(timeLeft)) == Some(timeLeft)
  {
    var p := Parts(timeLeft);
    ParseFormat(p.h, p.m, p.sec, p.ms);
  }
}

=== FILE: store.dfy ===
/** The durable key/value store that survives page loads (`GM_setValue` /
    `GM_getValue`), and the shape of one page load's observable result. */
module LoopStore {
  import opened Common
  import opened Remote

  /** The `loopData` snapshot written before the first navigation: enough to
      request a fresh order link later. */
  datatype LoopData = LoopData(projectId: Id, screenId: Id, skuId: Id, buyerId: Id)

  /** The four keys the script persists. `isLoopingActive` is only ever written
      as a boolean and read with default `false`, so an absent key and `false`
      are the same; `loopStartTime` and `clickInterval` keep their absence,
      because their readers supply a default; `loopData` absent and `null` are
      both `None`. */
  datatype Store = Store(
    looping: bool,
    startTime: Option<int>,
    interval: Option<nat>,
    loopData: Option<LoopData>)

  /** The store of a browser profile that never ran the script. */
  const Fresh: Store := Store(false, None, None, None)

  /** One `GM_setValue` call. */
  datatype Write =
    | SetLooping(active: bool)
    | SetStartTime(time: int)
    | SetInterval(ms: nat)
    | SetLoopData(data: Option<LoopData>)

  /** The store after one write; the other keys keep their values. */
  function Put(s: Store, w: Write): Store {
    match w
    case SetLooping(b) => s.(looping := b)
    case SetStartTime(t) => s.(startTime := Some(t))
    case SetInterval(ms) => s.(interval := Some(ms))
    case SetLoopData(d) => s.(loopData := d)
  }

  /** Something a page load does before its final action. */
  datatype Effect =
    | Persist(w: Write)            // an awaited store write
    | Prepare(req: PrepareRequest) // a POST to the order-preparation endpoint
    | Click                        // a click on the confirm page's submit control

  /** How a page load ends. */
  datatype Action =
    | Idle                     // nothing further: waiting for the user, or nothing to do
    | Navigate(target: OrderUrl) // `location.href` set to a fresh confirm-page link
    | Reload(after: nat)       // `location.reload()` after the click interval
    | NoReload(after: nat)     // the delayed check found the loop stopped
    | Stop                     // the attempt or the loop ended with an error

  /** The effects of one transition, in order, followed by its action. Every
      write is an effect, so every write is finished before the action starts. */
  datatype Step = Step(effects: seq<Effect>, action: Action)

  /** The store after one effect: only writes change it. */
  function Apply(s: Store, e: Effect): Store {
    if e.Persist? then Put(s, e.w) else s
  }

  /** The store after a list of effects, applied in order. */
  function Replay(s: Store, effects: seq<Effect>): Store
    decreases |effects|
  {
    if effects == [] then s else Replay(Apply(s, effects[0]), effects[1..])
  }

  /** The store a later reader sees once `step` has run on `s`. */
  function After(s: Store, step: Step): Store {
    Replay(s, step.effects)
  }

  /** The step sends no prepare request. */
  predicate NoRequest(effects: seq<Effect>) {
    forall e :: e in effects ==> !e.Prepare?
  }

  /** Replaying two effect lists one after the other is replaying their concatenation. */
  lemma {:induction false} ReplayAppend(s: Store, a: seq<Effect>, b: seq<Effect>)
    ensures Replay(s, a + b) == Replay(Replay(s, a), b)
    decreases |a|
  {
    if a != [] {
      assert (a + b)[1..] == a[1..] + b;
      ReplayAppend(Apply(s, a[0]), a[1..], b);
    } else {
      assert a + b == b;
    }
  }

  /** Effects that are not writes leave the store alone. */
  lemma {:induction false} ReplayNoWrites(s: Store, effects: seq<Effect>)
    requires forall e :: e in effects ==> !e.Persist?
    ensures Replay(s, effects) == s
    decreases |effects|
  {
    if effects != [] {
      assert effects[0] in effects;
      assert forall e :: e in effects[1..] ==> e in effects;
      ReplayNoWrites(s, effects[1..]);
    }
  }

  /** Replaying a one- or two-element list, spelled out. */
  lemma ReplayOne(s: Store, e: Effect)
    ensures Replay(s, [e]) == Apply(s, e)
  {
    assert [e][1..] == [];
  }

  lemma ReplayTwo(s: Store, e1: Effect, e2: Effect)
    ensures Replay(s, [e1, e2]) == Apply(Apply(s, e1), e2)
  {
    assert [e1, e2][1..] == [e2];
    ReplayOne(Apply(s, e1), e2);
  }
}

=== FILE: waiter.dfy ===
/** `waitForElement`: poll for a DOM element every 100 ms until it appears or
    the accumulated waiting time reaches the timeout. The DOM is replaced by
    the sequence of what each poll observed. */
module Waiter {
  import Config

  /** The submit control as the confirm page reads it. */
  datatype Control = Control(disabled: bool)

  /** What one poll of `document.querySelector` returned. */
  datatype Poll = Missing | Present(control: Control)

  /** The promise's settlement: resolved with the element at some poll
      (0-based), or rejected after some number of polls. */
  datatype WaitResult = Found(control: Control, poll: nat) | TimedOut(polls: nat)

  /** Poll `i` of an observation sequence; polls past its end find nothing. */
  function PollAt(polls: seq<Poll>, i: nat): Poll {
    if i < |polls| then polls[i] else Missing
  }

  /** The number of consecutive misses after which the wait rejects: the least
      k >= 1 whose accumulated time 100 * k reaches the timeout. */
  function MissesAllowed(timeout: int): (k: nat)
    ensures k >= 1
    ensures Config.PollInterval * k >= timeout
    ensures k == 1 || Config.PollInterval * (k - 1) < timeout
  {
    if timeout <= Config.PollInterval then 1
    else (timeout + Config.PollInterval - 1) / Config.PollInterval
  }

  /** The interval callback from poll `i` on, with `elapsed` milliseconds
      already counted: a hit resolves; a miss adds 100 ms and rejects once the
      total reaches the timeout. */
  function PollFrom(polls: seq<Poll>, i: nat, elapsed: int, timeout: int): WaitResult
    decreases timeout - elapsed
  {
    match PollAt(polls, i)
    case Present(c) => Found(c, i)
    case Missing =>
      var next := elapsed + Config.PollInterval;
      if next >= timeout then TimedOut(i + 1)
      else PollFrom(polls, i + 1, next, timeout)
  }

  /** All polls before `n` missed. */
  predicate MissedBefore(polls: seq<Poll>, n: nat) {
    forall j: nat :: j < n ==> PollAt(polls, j).Missing?
  }

  /** `PollFrom` resolves at the first hit before the miss budget and rejects
      exactly when the budget is spent without one. */
  lemma {:induction false} PollFromSpec(polls: seq<Poll>, i: nat, elapsed: int, timeout: int)
    requires elapsed == Config.PollInterval * i
    requires i == 0 || elapsed < timeout
    requires MissedBefore(polls, i)
    ensures var r := PollFrom(polls, i, elapsed, timeout);
      && (r.Found? ==> i <= r.poll < MissesAllowed(timeout)
                       && PollAt(polls, r.poll) == Present(r.control)
                       && MissedBefore(polls, r.poll))
      && (r.TimedOut? ==> r.polls == MissesAllowed(timeout) && MissedBefore(polls, r.polls))
    decreases timeout - elapsed
  {
    var k := MissesAllowed(timeout);
    match PollAt(polls, i)
    case Present(c) =>
    case Missing =>
      var next := elapsed + Config.PollInterval;
      assert MissedBefore(polls, i + 1) by {
        forall j: nat | j < i + 1 ensures PollAt(polls, j).Missing? {
          if j < i { assert PollAt(polls, j).Missing?; }
        }
      }
      if next < timeout {
        PollFromSpec(polls, i + 1, next, timeout);
      }
  }

  /** `waitForElement(selector, timeout)` over the observed polls. */
  function WaitForElement(polls: seq<Poll>, timeout: int): (r: WaitResult)
    // resolves with the first element seen, and only within the miss budget
    ensures r.Found? ==> r.poll < MissesAllowed(timeout)
                         && PollAt(polls, r.poll) == Present(r.control)
                         && MissedBefore(polls, r.poll)
    // rejects exactly after the budget of consecutive misses
    ensures r.TimedOut? ==> r.polls == MissesAllowed(timeout) && MissedBefore(polls, r.polls)
  {
    PollFromSpec(polls, 0, 0, timeout);
    PollFrom(polls, 0, 0, timeout)
  }

  /** The wait resolves iff some poll within the budget sees the element: both directions. */
  lemma WaitFoundIff(polls: seq<Poll>, timeout: int)
    ensures WaitForElement(polls, timeout).Found?
        <==> exists j: nat :: j < MissesAllowed(timeout) && PollAt(polls, j).Present?
  {
    var r := WaitForElement(polls, timeout);
    if r.Found? {
      assert PollAt(polls, r.poll).Present?;
    }
  }

  /** The settlement is final: polls after the budget cannot change it, so a
      rejected wait never resolves later and a resolved one never rejects. */
  lemma WaitIgnoresLaterPolls(a: seq<Poll>, b: seq<Poll>, timeout: int)
    requires forall j: nat :: j < MissesAllowed(timeout) ==> PollAt(a, j) == PollAt(b, j)
    ensures WaitForElement(a, timeout) == WaitForElement(b, timeout)
  {
  }
}
